=== FILE: README.md ===
# Incremental sales ETL — a Dafny model

`job_etl.py` is a daily Airflow job that copies new sales from a
transactional Postgres table (`venda`) into a star-schema warehouse. It
keeps a watermark in a text file (`checkpoint.txt`): the largest `id_venda`
loaded so far. Each run goes through these stages:

1. Read the watermark. A missing file means 0.
2. Select the sales with `id_venda` above the watermark. When there are
   none, compare the table's `max(id_venda)` with the watermark and raise
   either "There's no new data to load" or "Check the checkpoint var".
3. Ask a name service for the name of every distinct `id_funcionario` of
   the batch, one request per id.
4. Inner-join the batch with the category reference file on `id_categoria`,
   then with the employee names on `id_funcionario`.
5. Write de-duplicated employee, category and calendar dimensions, then
   one fact row per merged sale. Each calendar row has day, month, year and
   `bimestre = (mes - 1) // 2 + 1`.
6. Write `max(id_venda)` of the extracted batch back as the new watermark.

The model states each stage as a pure function over immutable sequences,
in these modules:

- `Records` (records.dfy): the rows of the table, the category file, the
  employee list and the merge, the calendar date, and the key each of them
  is identified or joined by.
- `Checkpoint` (checkpoint.dfy): the file as `Option<string>`, the decimal
  text written by `str` and parsed back by `int`.
- `Extract` (extract.dfy): the filter, the empty-result classification,
  the batch maximum and the distinct employee ids.
- `Enrich` (enrich.dfy): the employee list. The name service is a function
  `lookup: int -> string`.
- `InnerJoin` (inner_join.dfy): a generic one-key inner join.
- `Merge` (merge.dfy): the two joins of the merge stage.
- `Load` (load.dfy): dimensions, calendar, bimester and facts.
- `Pipeline` (pipeline.dfy): one run in the order the Airflow task chain runs the
  stages. `Decide` covers the first two tasks and `max_id`: read the
  watermark, extract, and either stop or name the batch and the next
  watermark. `RunOnce` then merges and loads that batch. It writes the
  watermark only after a load that went through. `Decide` takes neither
  the category file nor the name service, so the watermark a run writes
  cannot depend on them.
- `Seqs` (seqs.dfy) and `Wrappers` (wrappers.dfy): shared sequence
  operations, the one notion of unique keys, and `Option`.

The external systems are parameters of a run:

- `source` is the `venda` table at the time of the run.
- `cats` is the category file, with its key column already renamed to
  `id_categoria`.
- `lookup` is the name service.
- `loadSucceeds` says whether the warehouse accepted the inserts.

The sale amount `venda` is an abstract type `Amount`. It passes through
unchanged.

Some behaviours of the code are easy to overlook. The model keeps each of
them:

- A lookup answered with an error status is not detected. The code takes
  the response text as the name whatever the status (line 99), so every
  answer of `lookup` is used as a name.
- The next watermark is `max(id_venda)` of the extracted batch (line 61),
  taken before the joins. So a sale dropped by a join still moves the
  watermark past its id (`Pipeline.DroppedSaleIsSkippedForGood`).
- The dimensions drop duplicate `(nome, id)` pairs (lines 125, 129), not
  duplicate ids. One id carrying two names would give two dimension rows.
  Within one run that cannot happen to employees, because each distinct
  id is looked up once (`Pipeline.EmployeeDimensionHasUniqueIds`). For
  categories it cannot happen as long as the category file has no repeated
  id (`Pipeline.CategoryDimensionHasUniqueIds`).
- On an empty `venda` table the `int()` of the SQL `NULL` maximum (line 52)
  fails with an error other than the two `ValueError`s. The model gives
  this case its own outcome, `NoSourceMaximum`.

Some lemmas rely on facts about the table that the code assumes but never
checks:

- `id_venda` identifies a sale (`UniqueKeys(source, SaleId)`).
- Sales added later carry larger ids (`Pipeline.NextRunExtractsOnlyAppended`).
- Ids are positive, so the first run's `id_venda > 0` keeps every sale
  (`Pipeline.FirstRunExtractsWholeTable`).

## Model

| member | source | states |
|---|---|---|
| `Checkpoint.DecimalText` | job_etl.py:28-32 | the text written for a watermark is a non-empty run of decimal digits with no leading zero |
| `Checkpoint.DecimalRoundTrip` | job_etl.py:30 | parsing the written text of any watermark `n` gives back exactly `n` |
| `Checkpoint.Read` | job_etl.py:17-23 | a missing checkpoint file reads as watermark 0; an existing one's text is read as a decimal numeral, or as unreadable when it is not one (the code itself leaves the text unparsed until the query and `int()` use it) |
| `Checkpoint.Write` | job_etl.py:28-32 | a write replaces the whole file whatever it held, and reading it afterwards yields the written watermark |
| `Extract.MaxId` | job_etl.py:61 | the result is the `id_venda` of some row of the batch and no row has a larger one |
| `Extract.SourceMax` | job_etl.py:51-52 | the table maximum is absent exactly when the table is empty, otherwise it bounds every row's id and is attained by one |
| `Extract.NewRows` | job_etl.py:43 | a row is returned if and only if it is in the table and its `id_venda` is strictly greater than the watermark |
| `Extract.NewRowsCounts` | job_etl.py:43 | every newer row is returned as many times as the table holds it, and every other row not at all |
| `Extract.Classify` | job_etl.py:50-58 | a non-empty result is returned unchanged; an empty one is `NoNewData` iff the maximum equals the watermark, `CheckpointInconsistency` iff it differs, `NoSourceMaximum` iff it is absent |
| `Extract.ExtractRdbmsData` | job_etl.py:35-58 | rows are returned iff some row is newer than the watermark, and then they are exactly the query's rows `NewRows`, so each newer row as often as in the table; with the maximum taken from the same table, "no new data" iff the watermark equals the newest id, the checkpoint fault iff it is ahead of every id, and `NoSourceMaximum` iff the table is empty |
| `Extract.NextWatermark` | job_etl.py:61 | the next watermark is an id of the extracted batch, at least every id in it, and strictly above the old watermark |
| `Extract.UniqueEmployeeIds` | job_etl.py:62 | the employee ids to resolve have no duplicates and are exactly the ids occurring in the batch |
| `Seqs.Distinct` | job_etl.py:125 | de-duplication leaves no duplicates, keeps exactly the input's elements and never grows the sequence |
| `Seqs.DistinctKeepsFirstOccurrenceOrder` | job_etl.py:62 | the distinct elements appear in the order of their first occurrence in the input |
| `Seqs.DistinctOfDistinct` | job_etl.py:125 | a sequence that already has no duplicates is returned unchanged |
| `Enrich.ExtractApiData` | job_etl.py:88-103 | one entry per id in input order, entry `i` pairing id `i` with the service's answer for it; an entry is present iff its id was asked for and its name is the service's answer; distinct ids give entries with distinct ids (`UniqueKeys` on `EmployeeKey`) |
| `InnerJoin.JoinSound` | job_etl.py:109 | every joined row combines a left row and a right row with equal keys |
| `InnerJoin.JoinComplete` | job_etl.py:109 | every left/right pair with equal keys appears in the join |
| `InnerJoin.JoinAppend` | job_etl.py:109 | joining a concatenation of left sides joins each part in turn |
| `InnerJoin.MatchesUnique` | job_etl.py:109 | with unique right keys a key has at most one partner |
| `InnerJoin.JoinSingleUnique` | job_etl.py:111 | with unique right keys one left row yields at most one joined row |
| `Merge.MergedRowResolves` | job_etl.py:107-112 | every merged row extends an extracted sale, and its category and employee names come from rows carrying that sale's keys |
| `Merge.MergeComplete` | job_etl.py:109-111 | every sale with a matching category row and employee entry yields the merged row combining them |
| `Merge.MergeAppend` | job_etl.py:109-111 | merging is done sale by sale: the merge of a concatenation is the concatenation of the merges |
| `Merge.UnresolvedSaleMergesToNothing` | job_etl.py:109-111 | a sale whose category or employee does not resolve merges into no row |
| `Merge.UnresolvedSaleIsDropped` | job_etl.py:109-111 | such a sale can be removed from the batch without changing the merge result |
| `Merge.MergeSingleUnique` | job_etl.py:109-111 | with unique reference keys one sale yields one row extending it when both keys resolve and none otherwise |
| `Merge.MergeWithUniqueKeys` | job_etl.py:109-111 | with unique reference keys the merged rows extend, one each and in order, exactly the sales whose keys resolve, so they are never more than the sales |
| `Load.EmployeeDimension` | job_etl.py:125 | no duplicate `(nome_funcionario, id_funcionario)` pairs, and a pair is a row iff some merged row carries it |
| `Load.CategoryDimension` | job_etl.py:129 | no duplicate `(nome_categoria, id_categoria)` pairs, and a pair is a row iff some merged row carries it |
| `Load.EmployeeDimensionUniqueIds` | job_etl.py:125 | when merged rows with the same `id_funcionario` carry the same name, no two employee dimension rows share an id |
| `Load.CategoryDimensionUniqueIds` | job_etl.py:129 | when merged rows with the same `id_categoria` carry the same name, no two category dimension rows share an id |
| `Load.Bimestre` | job_etl.py:139 | for months 1..12 the bimester lies in 1..6 and is the two-month block holding the month (1,2→1 … 11,12→6) |
| `Load.CalendarRowOf` | job_etl.py:136-139 | the calendar row of a date carries that date's day, month and year and a bimester in 1..6 whose block contains the month |
| `Load.Insert` | job_etl.py:133 | inserting into an ascending sequence keeps it ascending and adds exactly that date |
| `Load.SortDates` | job_etl.py:133 | the dates come out ascending and are a permutation of the input |
| `Load.CalendarDates` | job_etl.py:133 | the calendar dates are strictly ascending, and a date is among them iff some merged row has it |
| `Load.CalendarDimension` | job_etl.py:133-139 | calendar rows have strictly ascending dates, each row carries its own date's attributes, and the row of a date is present iff some merged row has that date |
| `Load.FactRows` | job_etl.py:145 | one fact row per merged row in the same order, carrying its sale's amount, keys, date and id |
| `Load.LoadDataToDw` | job_etl.py:115-146 | the employee and category dimensions hold, once each, exactly the pairs the merged rows carry; the calendar has strictly ascending dates, each row with its own date's attributes, and a date's row iff a merged row has that date; fact row `i` is the fact of merged row `i`; no table is larger than the batch |
| `Pipeline.EmployeesOf` | job_etl.py:105 | the employee list has unique ids, resolves every employee of the batch, holds only employee ids that occur in the batch and carries the service's answers |
| `Pipeline.OnlyCategoryMissesAreDropped` | job_etl.py:105-111 | with unique category keys the merged rows extend, in order, exactly the sales whose category exists, so there are never more of them than sales |
| `Pipeline.MergedNamesComeFromService` | job_etl.py:105-111 | every merged row carries the name service's answer for its own employee id |
| `Pipeline.EmployeeDimensionHasUniqueIds` | job_etl.py:96-101 | the employee dimension of a run never has two rows with the same `id_funcionario` |
| `Pipeline.CategoryDimensionHasUniqueIds` | job_etl.py:107-129 | when the category file has no repeated `id_categoria`, the category dimension never has two rows with the same `id_categoria` |
| `Pipeline.Decide` | job_etl.py:17-61 | with an unreadable file it stops; with watermark `cp` it stops with "no new data" iff `cp` is the table's largest id, with the checkpoint fault iff `cp` is beyond it, on an empty table, and otherwise proceeds with the batch `NewRows(source, cp)`, exactly the sales newer than `cp`, each as often as in the table, and a next watermark that is the table's largest id, above `cp` and at least every extracted id |
| `Pipeline.RunOnce` | job_etl.py:153-192 | a run that stops leaves the checkpoint as it was; it completes iff the decision proceeds and the load goes through; a completed run writes a watermark above the old one, equal to the table's largest id, that reads back, and loads the merged batch, with every property of `Load.LoadDataToDw`: fact row `i` is the fact of merged row `i`, the dimensions hold exactly the merged rows' pairs, and the calendar exactly their dates |
| `Pipeline.NextRunExtractsOnlyAppended` | job_etl.py:43-58 | once a run's watermark is written, and given that sales appended to the table carry larger ids, the next run stops with "no new data" when nothing was appended and otherwise extracts exactly the appended sales, in the order they were appended |
| `Pipeline.FirstRunExtractsWholeTable` | job_etl.py:18-19 | with no checkpoint file and positive ids, the run proceeds from watermark 0 with the whole table, in table order, and the table's largest id as next watermark |
| `Pipeline.DroppedSaleHasNoFact` | job_etl.py:109-145 | when ids identify sales, a sale without category has no fact row, whatever the employee list |
| `Pipeline.DroppedSaleIsSkippedForGood` | job_etl.py:43-61 | a new sale whose category is missing is extracted but gets no fact row, yet the next watermark is at least its id, so it is never extracted again |

## Left out

- Airflow: the DAG, `default_args`, the operators and the retries. Only the
  task order matters here: extract, transform and load, then write the
  watermark. `Pipeline.RunOnce` follows that order.
- The module-level evaluation of the stages when the DAG file is imported
  (lines 25, 60-62, 86, 105, 114). The model runs the stages in the order
  of that data flow.
- Postgres connections, SQL text built by string interpolation, and
  `insert_rows`. The query is a filter over the table. The table maximum
  is computed from the same table snapshot. A failed insert is the
  `loadSucceeds` parameter.
- A load that fails partway, after some dimension tables have been
  written. Only success or failure of the whole load is modelled.
- HTTP requests, the parquet download, `read_parquet`, `os.remove` and the
  column rename. The category file and the name service are inputs.
- A lookup or download that raises. When `requests.get` fails on the
  connection, DNS or TLS (lines 68, 98), or `read_parquet` fails (line 81),
  the exception escapes the module-level calls (lines 86, 105). The run
  then aborts before the load and leaves the checkpoint unchanged. The
  model has no such outcome: `lookup` and `cats` always give an answer.
- Category file columns other than `id_categoria` and `nome_categoria`,
  and pandas' `_x`/`_y` suffixes when two joined columns share a name.
- Row order of the SQL result. Without `ORDER BY` it is unspecified; the
  model keeps table order. The properties about membership, duplicates and
  counts do not depend on this order.
- Row order of `pd.merge`. The model uses the documented left-then-right
  order. Membership, count and drop properties do not depend on it.
  `Merge.MergeWithUniqueKeys` and `Pipeline.OnlyCategoryMissesAreDropped`
  state that the merged rows follow the sales' order, so they hold only
  under that order. Pandas releases before 2.2 group inner-join rows by
  key instead.
- Timestamps. `pd.to_datetime` may keep a time of day; the model's dates
  are whole days (year, month, day) ordered lexicographically.
- The amount `venda`. It is carried unchanged, possibly as a float, and no
  arithmetic is done on it.
- Filesystem paths and actual persistence. The checkpoint file is the
  abstract value `Checkpoint.Store`.
- `Checkpoint.ParseDecimal`: accepts only non-empty strings of decimal
  digits. Python's `int()` also accepts surrounding whitespace, a sign and
  digit-group underscores. The written text is always a plain digit
  string, so this only matters for files edited by hand.
- `Pipeline.Decide`: stops with `UnreadableCheckpoint` whenever the file
  text is not a plain decimal numeral. The code does not parse the text when
  it reads it (line 22). It pastes the text into the query as is (line 43)
  and calls `int()` on it only when the result is empty (line 53). So a
  hand-edited text that SQL still reads as a number, such as `5.5`, lets the
  code extract and load, while the model stops. Matching that would need
  SQL's numeric-literal grammar and comparisons on fractions. The text the
  job itself writes is always a plain numeral, so this only matters for
  files edited by hand.

=== FILE: checkpoint.dfy ===
/** The checkpoint store: one plain-text file that holds the watermark, the
    `id_venda` of the last sale loaded into the warehouse. A missing file
    stands for watermark 0; a write replaces the whole file with the decimal
    text of the new watermark; a read parses the text back as an integer. */
module Checkpoint {
  import opened Wrappers

  predicate IsDigit(c: char) {
    '0' <= c <= '9'
  }

  predicate AllDigits(s: string) {
    forall i :: 0 <= i < |s| ==> IsDigit(s[i])
  }

  function DigitChar(d: nat): (c: char)
    requires d < 10
    ensures IsDigit(c) && DigitValue(c) == d
  {
    ('0' as int + d) as char
  }

  function DigitValue(c: char): (d: nat)
    requires IsDigit(c)
    ensures d < 10
  {
    c as int - '0' as int
  }

  /** The decimal text of `n`, without sign or leading zeros (`str(n)`). */
  function DecimalText(n: nat): (s: string)
    ensures |s| > 0 && AllDigits(s)
    ensures |s| > 1 ==> s[0] != '0'
  {
    if n < 10 then [DigitChar(n)]
    else DecimalText(n / 10) + [DigitChar(n % 10)]
  }

  /** The number a string of decimal digits denotes, most significant first. */
  function DecimalValue(s: string): nat
    requires AllDigits(s)
  {
    if |s| == 0 then 0
    else DecimalValue(s[..|s| - 1]) * 10 + DigitValue(s[|s| - 1])
  }

  /** Parsing a stored text as an integer (`int(text)`): a non-empty string
      of decimal digits denotes its value; any other text is rejected. */
  function ParseDecimal(s: string): (r: Option<nat>)
    ensures r.Some? <==> |s| > 0 && AllDigits(s)
  {
    if |s| > 0 && AllDigits(s) then Some(DecimalValue(s)) else None
  }

  /** Parsing the decimal text of `n` gives back `n`. */
  lemma {:induction false} DecimalRoundTrip(n: nat)
    ensures ParseDecimal(DecimalText(n)) == Some(n)
  {
    var s := DecimalText(n);
    if n < 10 {
      assert s == [DigitChar(n)];
      assert s[..0] == [];
      assert DecimalValue(s) == DecimalValue([]) * 10 + DigitValue(DigitChar(n));
    } else {
      var prefix := DecimalText(n / 10);
      assert s == prefix + [DigitChar(n % 10)];
      assert s[..|s| - 1] == prefix;
      DecimalRoundTrip(n / 10);
      assert DecimalValue(prefix) == n / 10;
      assert DecimalValue(s) == DecimalValue(prefix) * 10 + n % 10;
    }
  }

  /** The state of the checkpoint file: `None` when the file does not exist,
      otherwise its whole text. */
  datatype Store = Store(file: Option<string>)

  /** The store before the first successful run. */
  const Missing := Store(None)

  /** Reading the watermark: a missing file reads as 0, otherwise the file
      text is parsed; `None` when the text is not a number. */
  function Read(s: Store): (r: Option<nat>)
    ensures s.file.None? ==> r == Some(0)
    ensures s.file.Some? ==> r == ParseDecimal(s.file.value)
  {
    match s.file
    case None => Some(0)
    case Some(text) => ParseDecimal(text)
  }

  /** Writing the watermark `n`: the file, whatever it held before, is
      replaced by the decimal text of `n`, so that reading it yields `n`. */
  function Write(n: nat): (r: Store)
    ensures r.file.Some?
    ensures Read(r) == Some(n)
  {
    DecimalRoundTrip(n);
    Store(Some(DecimalText(n)))
  }
}

=== FILE: enrich.dfy ===
/** Enrichment: the employee list built by asking the lookup service for the
    name of every distinct employee id of the batch, one request per id.
    The service is the function `lookup`: whatever text it answers for an
    id is taken as that employee's name. */
module Enrich {
  import opened Seqs
  import opened Records

  /** One entry per id, in the order of the ids, each pairing the id with
      the service's answer for it (`extract_api_data`). So an entry is in
      the list exactly when its id was asked for and its name is the
      service's answer, and distinct ids give an entry per id and no two
      entries with the same id. */
  function ExtractApiData(ids: seq<int>, lookup: int -> string): (r: seq<Employee>)
    ensures |r| == |ids|
    ensures forall i :: 0 <= i < |ids| ==>
      r[i].idFuncionario == ids[i] && r[i].nomeFuncionario == lookup(ids[i])
    ensures forall e :: e in r <==> e.idFuncionario in ids && e.nomeFuncionario == lookup(e.idFuncionario)
    ensures NoDups(ids) ==> UniqueKeys(r, EmployeeKey)
  {
    if |ids| == 0 then []
    else
      var init, last := ids[..|ids| - 1], ids[|ids| - 1];
      assert ids == init + [last];
      ExtractApiData(init, lookup) + [Employee(lookup(last), last)]
  }
}

=== FILE: extract.dfy ===
/** Incremental extraction: the sales newer than the watermark, the check
    that tells "nothing new" from "the watermark does not match the table"
    when there are none, and the quantities derived from the extracted
    batch (the next watermark and the employee ids to resolve). */
module Extract {
  import opened Wrappers
  import opened Seqs
  import opened Records

  /** The outcome of extraction. The two faults are the source's two
      `ValueError`s; `NoSourceMaximum` is the failure of converting the
      `NULL` maximum of an empty table to an integer. */
  datatype Extraction =
    | Rows(rows: seq<Transaction>)
    | NoNewData
    | CheckpointInconsistency
    | NoSourceMaximum

  /** The largest `id_venda` of a non-empty batch. */
  function MaxId(batch: seq<Transaction>): (m: int)
    requires |batch| > 0
    ensures exists i :: 0 <= i < |batch| && batch[i].idVenda == m
    ensures forall i :: 0 <= i < |batch| ==> batch[i].idVenda <= m
  {
    if |batch| == 1 then batch[0].idVenda
    else
      var rest := MaxId(batch[1..]);
      if batch[0].idVenda >= rest then batch[0].idVenda else rest
  }

  /** `SELECT max(id_venda) FROM venda`: `None` (SQL `NULL`) on an empty table. */
  function SourceMax(source: seq<Transaction>): (m: Option<int>)
    ensures m.None? <==> |source| == 0
    ensures m.Some? ==> forall t :: t in source ==> t.idVenda <= m.value
    ensures m.Some? ==> exists t :: t in source && t.idVenda == m.value
  {
    if |source| == 0 then None else Some(MaxId(source))
  }

  predicate IsNew(checkpoint: nat, t: Transaction) {
    t.idVenda > checkpoint
  }

  /** `SELECT ... FROM venda WHERE id_venda > checkpoint`, in table order. */
  function NewRows(source: seq<Transaction>, checkpoint: nat): (r: seq<Transaction>)
    ensures forall t :: t in r <==> t in source && t.idVenda > checkpoint
  {
    Filter(source, t => IsNew(checkpoint, t))
  }

  /** The query returns every newer row as many times as the table holds
      it, and no other row. */
  lemma NewRowsCounts(source: seq<Transaction>, checkpoint: nat, t: Transaction)
    ensures multiset(NewRows(source, checkpoint))[t] == if t.idVenda > checkpoint then multiset(source)[t] else 0
  {
    FilterCounts(source, u => IsNew(checkpoint, u), t);
  }

  /** The validation applied to a query result: a non-empty result is
      returned as it is; an empty one is "no new data" when the source
      maximum equals the watermark and a checkpoint fault otherwise. */
  function Classify(rows: seq<Transaction>, checkpoint: nat, sourceMax: Option<int>): (e: Extraction)
    ensures |rows| > 0 <==> e.Rows?
    ensures e.Rows? ==> e.rows == rows
    ensures e == NoNewData <==> |rows| == 0 && sourceMax == Some(checkpoint)
    ensures e == CheckpointInconsistency <==>
      |rows| == 0 && sourceMax.Some? && sourceMax.value != checkpoint
    ensures e == NoSourceMaximum <==> |rows| == 0 && sourceMax.None?
  {
    if |rows| > 0 then Rows(rows)
    else match sourceMax
      case None => NoSourceMaximum
      case Some(m) => if m == checkpoint then NoNewData else CheckpointInconsistency
  }

  /** Extraction against one snapshot of the source table. Rows come back
      exactly when some sale is newer than the watermark; otherwise the
      outcome says where the watermark stands: level with the newest sale
      ("no new data"), ahead of every sale (the checkpoint fault), or the
      table is empty. */
  function ExtractRdbmsData(source: seq<Transaction>, checkpoint: nat): (e: Extraction)
    ensures e.Rows? ==> |e.rows| > 0
    ensures e.Rows? ==> forall t :: t in e.rows <==> t in source && t.idVenda > checkpoint
    ensures e.Rows? ==> e.rows == NewRows(source, checkpoint)
    ensures e.Rows? <==> exists t :: t in source && t.idVenda > checkpoint
    ensures e == NoNewData <==> |source| > 0 && MaxId(source) == checkpoint
    ensures e == CheckpointInconsistency <==> |source| > 0 && MaxId(source) < checkpoint
    ensures e == NoSourceMaximum <==> |source| == 0
  {
    var rows := NewRows(source, checkpoint);
    assert |rows| > 0 ==> rows[0] in rows;
    assert |source| > 0 ==> (|rows| > 0 <==> MaxId(source) > checkpoint) by {
      if |source| > 0 {
        var m := MaxId(source);
        var i :| 0 <= i < |source| && source[i].idVenda == m;
        assert source[i] in source;
        if m > checkpoint {
          assert source[i] in rows;
        }
        if |rows| > 0 {
          assert rows[0] in source;
          var j :| 0 <= j < |source| && source[j] == rows[0];
        }
      }
    }
    Classify(rows, checkpoint, SourceMax(source))
  }

  /** The next watermark, `max(id_venda)` of the extracted batch. */
  function NextWatermark(checkpoint: nat, batch: seq<Transaction>): (w: nat)
    requires |batch| > 0
    requires forall i :: 0 <= i < |batch| ==> batch[i].idVenda > checkpoint
    ensures w > checkpoint
    ensures w in set t | t in batch :: t.idVenda
    ensures forall t :: t in batch ==> t.idVenda <= w
  {
    var m := MaxId(batch);
    var i :| 0 <= i < |batch| && batch[i].idVenda == m;
    assert batch[i] in batch;
    m
  }

  /** `id_funcionario` of every row, in row order. */
  function EmployeeColumn(batch: seq<Transaction>): (ids: seq<int>)
    ensures |ids| == |batch|
    ensures forall i :: 0 <= i < |batch| ==> ids[i] == batch[i].idFuncionario
  {
    seq(|batch|, i requires 0 <= i < |batch| => batch[i].idFuncionario)
  }

  /** The distinct employee ids of the batch in order of first appearance
      (pandas `unique()`). */
  function UniqueEmployeeIds(batch: seq<Transaction>): (ids: seq<int>)
    ensures NoDups(ids)
    ensures forall id :: id in ids <==> exists t :: t in batch && t.idFuncionario == id
  {
    var column := EmployeeColumn(batch);
    assert forall t :: t in batch ==> t.idFuncionario in column;
    Distinct(column)
  }
}

=== FILE: inner_join.dfy ===
/** An inner join on one integer key, as `pd.merge(left, right, on=key)`
    computes it: for every left row in order, one output row per right row
    with the same key, in right order. A left row without a partner yields
    nothing. */
module InnerJoin {
  import opened Seqs

  /** The right rows whose key is `key`, in order. */
  function Matches<R(!new)>(key: int, right: seq<R>, rk: R -> int): (m: seq<R>)
    ensures forall x :: x in m <==> x in right && rk(x) == key
    ensures |m| <= |right|
  {
    if |right| == 0 then []
    else (if rk(right[0]) == key then [right[0]] else []) + Matches(key, right[1..], rk)
  }

  function Pairs<L, R, O>(l: L, ms: seq<R>, combine: (L, R) -> O): (r: seq<O>)
    ensures |r| == |ms|
    ensures forall i :: 0 <= i < |ms| ==> r[i] == combine(l, ms[i])
  {
    seq(|ms|, i requires 0 <= i < |ms| => combine(l, ms[i]))
  }

  function Join<L, R(!new), O>(left: seq<L>, right: seq<R>, lk: L -> int, rk: R -> int,
                               combine: (L, R) -> O): seq<O>
  {
    if |left| == 0 then []
    else Pairs(left[0], Matches(lk(left[0]), right, rk), combine) + Join(left[1..], right, lk, rk, combine)
  }

  /** Joining distributes over concatenation of the left side. */
  lemma {:induction false} JoinAppend<L, R(!new), O>(a: seq<L>, b: seq<L>, right: seq<R>,
                                                     lk: L -> int, rk: R -> int, combine: (L, R) -> O)
    ensures Join(a + b, right, lk, rk, combine) == Join(a, right, lk, rk, combine) + Join(b, right, lk, rk, combine)
  {
    if |a| == 0 {
      assert a + b == b;
    } else {
      assert (a + b)[1..] == a[1..] + b;
      JoinAppend(a[1..], b, right, lk, rk, combine);
    }
  }

  /** Every output row combines a left row and a right row with equal keys. */
  lemma {:induction false} JoinSound<L, R(!new), O>(left: seq<L>, right: seq<R>, lk: L -> int, rk: R -> int,
                                                    combine: (L, R) -> O, o: O)
    requires o in Join(left, right, lk, rk, combine)
    ensures exists l, r :: l in left && r in right && lk(l) == rk(r) && o == combine(l, r)
  {
    var ms := Matches(lk(left[0]), right, rk);
    var head := Pairs(left[0], ms, combine);
    if o in head {
      var i :| 0 <= i < |head| && head[i] == o;
      assert ms[i] in ms;
    } else {
      JoinSound(left[1..], right, lk, rk, combine, o);
      var l, r :| l in left[1..] && r in right && lk(l) == rk(r) && o == combine(l, r);
      assert l in left;
    }
  }

  /** Every pair of a left row and a right row with equal keys is in the output. */
  lemma {:induction false} JoinComplete<L, R(!new), O>(left: seq<L>, right: seq<R>, lk: L -> int, rk: R -> int,
                                                       combine: (L, R) -> O, l: L, r: R)
    requires l in left && r in right && lk(l) == rk(r)
    ensures combine(l, r) in Join(left, right, lk, rk, combine)
  {
    if left[0] == l {
      var ms := Matches(lk(l), right, rk);
      var i :| 0 <= i < |ms| && ms[i] == r;
      assert Pairs(l, ms, combine)[i] == combine(l, r);
    } else {
      JoinComplete(left[1..], right, lk, rk, combine, l, r);
    }
  }

  /** A key no right row carries has no partner. */
  lemma {:induction false} MatchesNone<R(!new)>(key: int, right: seq<R>, rk: R -> int)
    requires forall x :: x in right ==> rk(x) != key
    ensures Matches(key, right, rk) == []
  {
    if |right| > 0 {
      assert right[0] in right;
      MatchesNone(key, right[1..], rk);
    }
  }

  /** With unique right keys a left row has at most one partner. */
  lemma {:induction false} MatchesUnique<R(!new)>(key: int, right: seq<R>, rk: R -> int)
    requires UniqueKeys(right, rk)
    ensures |Matches(key, right, rk)| <= 1
  {
    if |right| > 0 {
      var rest := right[1..];
      assert UniqueKeys(rest, rk);
      MatchesUnique(key, rest, rk);
      if rk(right[0]) == key {
        forall x | x in rest
          ensures rk(x) != key
        {
          var j :| 0 <= j < |rest| && rest[j] == x;
          assert x == right[j + 1];
        }
        MatchesNone(key, rest, rk);
      }
    }
  }

  /** With unique right keys a single left row yields at most one output row. */
  lemma JoinSingleUnique<L, R(!new), O>(l: L, right: seq<R>, lk: L -> int, rk: R -> int, combine: (L, R) -> O)
    requires UniqueKeys(right, rk)
    ensures |Join([l], right, lk, rk, combine)| <= 1
  {
    MatchesUnique(lk(l), right, rk);
    assert [l][1..] == [];
  }
}

=== FILE: load.dfy ===
/** The load stage (`load_data_to_dw`): the merged rows reshaped into the
    warehouse's star schema. Three dimension tables, each de-duplicated
    (keeping first occurrences, as `drop_duplicates()` does), are written
    before the fact table. */
module Load {
  import opened Seqs
  import opened Records

  datatype EmployeeRow = EmployeeRow(nomeFuncionario: string, idFuncionario: int)
  datatype CategoryRow = CategoryRow(nomeCategoria: string, idCategoria: int)
  datatype CalendarRow = CalendarRow(dataVenda: CalendarDate, dia: int, mes: int, ano: int, bimestre: int)
  datatype FactRow = FactRow(venda: Amount, idFuncionario: int, idCategoria: int, dataVenda: CalendarDate, idVenda: int)

  /** The rows written to `funcionarios`, `categoria`, `calendario` and
      `vendas`, in that order. */
  datatype Warehouse = Warehouse(
    funcionarios: seq<EmployeeRow>,
    categorias: seq<CategoryRow>,
    calendario: seq<CalendarRow>,
    vendas: seq<FactRow>)

  /** The natural key of each dimension row. */
  function EmployeeRowId(r: EmployeeRow): int { r.idFuncionario }
  function CategoryRowId(r: CategoryRow): int { r.idCategoria }

  function EmployeePair(m: Merged): EmployeeRow {
    EmployeeRow(m.nomeFuncionario, m.sale.idFuncionario)
  }

  function CategoryPair(m: Merged): CategoryRow {
    CategoryRow(m.nomeCategoria, m.sale.idCategoria)
  }

  /** The `(nome_funcionario, id_funcionario)` column pair, one entry per merged row. */
  function EmployeePairs(ms: seq<Merged>): (p: seq<EmployeeRow>)
    ensures |p| == |ms|
    ensures forall i :: 0 <= i < |ms| ==> p[i] == EmployeePair(ms[i])
  {
    seq(|ms|, i requires 0 <= i < |ms| => EmployeePair(ms[i]))
  }

  /** The `(nome_categoria, id_categoria)` column pair, one entry per merged row. */
  function CategoryPairs(ms: seq<Merged>): (p: seq<CategoryRow>)
    ensures |p| == |ms|
    ensures forall i :: 0 <= i < |ms| ==> p[i] == CategoryPair(ms[i])
  {
    seq(|ms|, i requires 0 <= i < |ms| => CategoryPair(ms[i]))
  }

  /** The distinct `(nome_funcionario, id_funcionario)` pairs of the merged rows. */
  function EmployeeDimension(ms: seq<Merged>): (r: seq<EmployeeRow>)
    ensures NoDups(r) && |r| <= |ms|
    ensures forall row :: row in r <==> row in EmployeePairs(ms)
  {
    Distinct(EmployeePairs(ms))
  }

  /** The distinct `(nome_categoria, id_categoria)` pairs of the merged rows. */
  function CategoryDimension(ms: seq<Merged>): (r: seq<CategoryRow>)
    ensures NoDups(r) && |r| <= |ms|
    ensures forall row :: row in r <==> row in CategoryPairs(ms)
  {
    Distinct(CategoryPairs(ms))
  }
  /** When merged rows with the same `id_funcionario` carry the same name,
      the employee dimension has one row per id. */
  lemma EmployeeDimensionUniqueIds(ms: seq<Merged>)
    requires forall a, b :: a in ms && b in ms && a.sale.idFuncionario == b.sale.idFuncionario ==>
      a.nomeFuncionario == b.nomeFuncionario
    ensures UniqueKeys(EmployeeDimension(ms), EmployeeRowId)
  {
    var dim := EmployeeDimension(ms);
    forall x, y | x in dim && y in dim && EmployeeRowId(x) == EmployeeRowId(y)
      ensures x == y
    {
      var i :| 0 <= i < |ms| && EmployeePairs(ms)[i] == x;
      var j :| 0 <= j < |ms| && EmployeePairs(ms)[j] == y;
      assert ms[i] in ms && ms[j] in ms;
    }
    UniqueKeysOfNoDups(dim, EmployeeRowId);
  }

  /** When merged rows with the same `id_categoria` carry the same name,
      the category dimension has one row per id. */
  lemma CategoryDimensionUniqueIds(ms: seq<Merged>)
    requires forall a, b :: a in ms && b in ms && a.sale.idCategoria == b.sale.idCategoria ==>
      a.nomeCategoria == b.nomeCategoria
    ensures UniqueKeys(CategoryDimension(ms), CategoryRowId)
  {
    var dim := CategoryDimension(ms);
    forall x, y | x in dim && y in dim && CategoryRowId(x) == CategoryRowId(y)
      ensures x == y
    {
      var i :| 0 <= i < |ms| && CategoryPairs(ms)[i] == x;
      var j :| 0 <= j < |ms| && CategoryPairs(ms)[j] == y;
      assert ms[i] in ms && ms[j] in ms;
    }
    UniqueKeysOfNoDups(dim, CategoryRowId);
  }


  /** `(mes - 1) // 2 + 1`. Dafny's `/` by a positive divisor rounds toward
      negative infinity, as Python's `//` does. */
  function Bimestre(mes: int): (b: int)
    ensures 1 <= mes <= 12 ==> 1 <= b <= 6 && (mes == 2 * b - 1 || mes == 2 * b)
  {
    (mes - 1) / 2 + 1
  }

  /** The calendar attributes derived from one date. */
  function CalendarRowOf(d: CalendarDate): (r: CalendarRow)
    ensures r.dataVenda == d
    ensures 1 <= r.bimestre <= 6
    ensures r.mes == 2 * r.bimestre - 1 || r.mes == 2 * r.bimestre
    ensures (r.ano, r.mes, r.dia) == (d.year, d.month, d.day)
  {
    CalendarRow(d, d.day, d.month, d.year, Bimestre(d.month))
  }

  predicate Sorted(s: seq<CalendarDate>) {
    forall i, j :: 0 <= i < j < |s| ==> s[i].AtOrBefore(s[j])
  }

  predicate StrictlyAscending(s: seq<CalendarDate>) {
    forall i, j :: 0 <= i < j < |s| ==> s[i].Before(s[j])
  }

  function Insert(d: CalendarDate, s: seq<CalendarDate>): (r: seq<CalendarDate>)
    requires Sorted(s)
    ensures Sorted(r)
    ensures forall x :: x in r <==> x == d || x in s
    ensures multiset(r) == multiset(s) + multiset{d}
  {
    if |s| == 0 then [d]
    else if d.AtOrBefore(s[0]) then [d] + s
    else
      var rest := Insert(d, s[1..]);
      assert s == [s[0]] + s[1..];
      assert s[0].Before(d);
      assert forall x :: x in rest ==> s[0].AtOrBefore(x);
      [s[0]] + rest
  }

  /** The dates in ascending order (`sort_values('data_venda')`). */
  function SortDates(s: seq<CalendarDate>): (r: seq<CalendarDate>)
    ensures Sorted(r)
    ensures multiset(r) == multiset(s)
    ensures |r| == |s| && forall x :: x in r <==> x in s
  {
    if |s| == 0 then []
    else
      assert s == [s[0]] + s[1..];
      Insert(s[0], SortDates(s[1..]))
  }

  /** `data_venda` of every merged row, in row order. */
  function SaleDates(ms: seq<Merged>): (dates: seq<CalendarDate>)
    ensures |dates| == |ms|
    ensures forall i :: 0 <= i < |ms| ==> dates[i] == ms[i].sale.dataVenda
  {
    seq(|ms|, i requires 0 <= i < |ms| => ms[i].sale.dataVenda)
  }

  /** The distinct sale dates of the merged rows, ascending
      (`drop_duplicates().sort_values('data_venda')`). */
  function CalendarDates(ms: seq<Merged>): (r: seq<CalendarDate>)
    ensures StrictlyAscending(r)
    ensures |r| <= |ms|
    ensures forall d :: d in r <==> d in SaleDates(ms)
  {
    var distinct := Distinct(SaleDates(ms));
    var sorted := SortDates(distinct);
    PermutationKeepsNoDups(distinct, sorted);
    assert StrictlyAscending(sorted);
    sorted
  }

  function CalendarRows(dates: seq<CalendarDate>): (r: seq<CalendarRow>)
    ensures |r| == |dates|
    ensures forall k :: 0 <= k < |dates| ==> r[k] == CalendarRowOf(dates[k])
    ensures forall d :: CalendarRowOf(d) in r <==> d in dates
  {
    var r := seq(|dates|, k requires 0 <= k < |dates| => CalendarRowOf(dates[k]));
    assert forall d :: CalendarRowOf(d) in r <==> d in dates by {
      forall d
        ensures CalendarRowOf(d) in r <==> d in dates
      {
        if CalendarRowOf(d) in r {
          var k :| 0 <= k < |r| && r[k] == CalendarRowOf(d);
          assert dates[k] == d;
        }
        if d in dates {
          var k :| 0 <= k < |dates| && dates[k] == d;
          assert r[k] == CalendarRowOf(d);
        }
      }
    }
    r
  }

  /** The calendar dimension: one row for each distinct sale date of the
      merged rows and for no other date, ascending by date, each carrying
      that date's day, month, year and bimester. */
  function CalendarDimension(ms: seq<Merged>): (r: seq<CalendarRow>)
    ensures forall i, j :: 0 <= i < j < |r| ==> r[i].dataVenda.Before(r[j].dataVenda)
    ensures |r| <= |ms|
    ensures forall k :: 0 <= k < |r| ==> r[k] == CalendarRowOf(r[k].dataVenda)
    ensures forall d :: CalendarRowOf(d) in r <==> d in SaleDates(ms)
  {
    CalendarRows(CalendarDates(ms))
  }

  function FactOf(m: Merged): FactRow {
    FactRow(m.sale.venda, m.sale.idFuncionario, m.sale.idCategoria, m.sale.dataVenda, m.sale.idVenda)
  }

  /** One fact row per merged row, in the same order, carrying the sale's
      amount, keys, date and id. */
  function FactRows(ms: seq<Merged>): (r: seq<FactRow>)
    ensures |r| == |ms|
    ensures forall i :: 0 <= i < |ms| ==>
      && r[i].idVenda == ms[i].sale.idVenda
      && r[i].venda == ms[i].sale.venda
      && r[i].idFuncionario == ms[i].sale.idFuncionario
      && r[i].idCategoria == ms[i].sale.idCategoria
      && r[i].dataVenda == ms[i].sale.dataVenda
  {
    seq(|ms|, i requires 0 <= i < |ms| => FactOf(ms[i]))
  }

  /** Everything `load_data_to_dw` writes for one merged batch: each
      dimension holds exactly the pairs the merged rows carry, once each;
      the calendar holds one row per sale date, ascending; and the fact
      table holds one row per merged row, in order. */
  function LoadDataToDw(ms: seq<Merged>): (w: Warehouse)
    ensures NoDups(w.funcionarios) && |w.funcionarios| <= |ms|
    ensures forall row :: row in w.funcionarios <==> row in EmployeePairs(ms)
    ensures NoDups(w.categorias) && |w.categorias| <= |ms|
    ensures forall row :: row in w.categorias <==> row in CategoryPairs(ms)
    ensures forall i, j :: 0 <= i < j < |w.calendario| ==>
      w.calendario[i].dataVenda.Before(w.calendario[j].dataVenda)
    ensures |w.calendario| <= |ms|
    ensures forall k :: 0 <= k < |w.calendario| ==> w.calendario[k] == CalendarRowOf(w.calendario[k].dataVenda)
    ensures forall d :: CalendarRowOf(d) in w.calendario <==> d in SaleDates(ms)
    ensures |w.vendas| == |ms|
    ensures forall i :: 0 <= i < |ms| ==> w.vendas[i] == FactOf(ms[i])
  {
    Warehouse(EmployeeDimension(ms), CategoryDimension(ms), CalendarDimension(ms), FactRows(ms))
  }
}

=== FILE: merge.dfy ===
/** The merge stage (`merge_data`): the extracted sales joined with the
    category reference table on `id_categoria`, and that result joined with
    the employee list on `id_funcionario`. Both joins are inner joins, so a
    sale whose category or employee does not resolve is dropped without a
    trace. */
module Merge {
  import opened Seqs
  import opened Records
  import opened InnerJoin

  function SaleCategoryKey(t: Transaction): int { t.idCategoria }
  function AttachCategory(t: Transaction, c: Category): WithCategory { WithCategory(t, c.nomeCategoria) }

  function SaleEmployeeKey(w: WithCategory): int { w.sale.idFuncionario }
  function AttachEmployee(w: WithCategory, e: Employee): Merged { Merged(w.sale, w.nomeCategoria, e.nomeFuncionario) }

  /** `pd.merge(pd.merge(sales, categories, on='id_categoria'), employees, on='id_funcionario')` */
  function MergeData(sales: seq<Transaction>, cats: seq<Category>, emps: seq<Employee>): seq<Merged> {
    Join(Join(sales, cats, SaleCategoryKey, CategoryKey, AttachCategory),
         emps, SaleEmployeeKey, EmployeeKey, AttachEmployee)
  }

  predicate HasCategory(cats: seq<Category>, t: Transaction) {
    exists c :: c in cats && c.idCategoria == t.idCategoria
  }

  predicate HasEmployee(emps: seq<Employee>, t: Transaction) {
    exists e :: e in emps && e.idFuncionario == t.idFuncionario
  }

  /** The sale a merged row extends, for each row. */
  function Sales(ms: seq<Merged>): (r: seq<Transaction>)
    ensures |r| == |ms|
    ensures forall i :: 0 <= i < |ms| ==> r[i] == ms[i].sale
  {
    seq(|ms|, i requires 0 <= i < |ms| => ms[i].sale)
  }

  /** Every merged row extends an extracted sale with the name of a
      category row and the name of an employee entry whose keys are the
      sale's own. */
  lemma MergedRowResolves(sales: seq<Transaction>, cats: seq<Category>, emps: seq<Employee>, m: Merged)
    requires m in MergeData(sales, cats, emps)
    ensures m.sale in sales
    ensures exists c :: c in cats && c.idCategoria == m.sale.idCategoria && c.nomeCategoria == m.nomeCategoria
    ensures exists e :: e in emps && e.idFuncionario == m.sale.idFuncionario && e.nomeFuncionario == m.nomeFuncionario
  {
    var first := Join(sales, cats, SaleCategoryKey, CategoryKey, AttachCategory);
    JoinSound(first, emps, SaleEmployeeKey, EmployeeKey, AttachEmployee, m);
    var w, e :| w in first && e in emps && SaleEmployeeKey(w) == EmployeeKey(e) && m == AttachEmployee(w, e);
    JoinSound(sales, cats, SaleCategoryKey, CategoryKey, AttachCategory, w);
    var t, c :| t in sales && c in cats && SaleCategoryKey(t) == CategoryKey(c) && w == AttachCategory(t, c);
  }

  /** Every combination of an extracted sale with a category row and an
      employee entry carrying its keys is a merged row. */
  lemma MergeComplete(sales: seq<Transaction>, cats: seq<Category>, emps: seq<Employee>,
                      t: Transaction, c: Category, e: Employee)
    requires t in sales && c in cats && e in emps
    requires c.idCategoria == t.idCategoria && e.idFuncionario == t.idFuncionario
    ensures Merged(t, c.nomeCategoria, e.nomeFuncionario) in MergeData(sales, cats, emps)
  {
    JoinComplete(sales, cats, SaleCategoryKey, CategoryKey, AttachCategory, t, c);
    var first := Join(sales, cats, SaleCategoryKey, CategoryKey, AttachCategory);
    JoinComplete(first, emps, SaleEmployeeKey, EmployeeKey, AttachEmployee, AttachCategory(t, c), e);
  }

  /** Merging a concatenation of batches merges each batch in turn. */
  lemma MergeAppend(a: seq<Transaction>, b: seq<Transaction>, cats: seq<Category>, emps: seq<Employee>)
    ensures MergeData(a + b, cats, emps) == MergeData(a, cats, emps) + MergeData(b, cats, emps)
  {
    JoinAppend(a, b, cats, SaleCategoryKey, CategoryKey, AttachCategory);
    JoinAppend(Join(a, cats, SaleCategoryKey, CategoryKey, AttachCategory),
               Join(b, cats, SaleCategoryKey, CategoryKey, AttachCategory),
               emps, SaleEmployeeKey, EmployeeKey, AttachEmployee);
  }

  /** A sale whose category or employee does not resolve merges into nothing. */
  lemma UnresolvedSaleMergesToNothing(t: Transaction, cats: seq<Category>, emps: seq<Employee>)
    requires !HasCategory(cats, t) || !HasEmployee(emps, t)
    ensures MergeData([t], cats, emps) == []
  {
    var single := MergeData([t], cats, emps);
    if |single| > 0 {
      MergedRowResolves([t], cats, emps, single[0]);
      assert false;
    }
  }

  /** A sale whose category or employee does not resolve contributes no
      merged row: the batch merges as if the sale were not in it. */
  lemma UnresolvedSaleIsDropped(a: seq<Transaction>, t: Transaction, b: seq<Transaction>,
                                cats: seq<Category>, emps: seq<Employee>)
    requires !HasCategory(cats, t) || !HasEmployee(emps, t)
    ensures MergeData(a + [t] + b, cats, emps) == MergeData(a + b, cats, emps)
  {
    UnresolvedSaleMergesToNothing(t, cats, emps);
    MergeAppend(a + [t], b, cats, emps);
    MergeAppend(a, [t], cats, emps);
    MergeAppend(a, b, cats, emps);
    assert MergeData(a + [t], cats, emps) == MergeData(a, cats, emps);
  }

  predicate Resolves(cats: seq<Category>, emps: seq<Employee>, t: Transaction) {
    HasCategory(cats, t) && HasEmployee(emps, t)
  }

  /** With unique keys in both reference tables, one sale merges into one
      row extending it when both its keys resolve, and into nothing otherwise. */
  lemma MergeSingleUnique(t: Transaction, cats: seq<Category>, emps: seq<Employee>)
    requires UniqueKeys(cats, CategoryKey) && UniqueKeys(emps, EmployeeKey)
    ensures Sales(MergeData([t], cats, emps)) == if Resolves(cats, emps, t) then [t] else []
  {
    var first := Join([t], cats, SaleCategoryKey, CategoryKey, AttachCategory);
    JoinSingleUnique(t, cats, SaleCategoryKey, CategoryKey, AttachCategory);
    var ms := MergeData([t], cats, emps);
    if |first| == 1 {
      assert first == [first[0]];
      JoinSingleUnique(first[0], emps, SaleEmployeeKey, EmployeeKey, AttachEmployee);
    } else {
      assert first == [];
    }
    assert |ms| <= 1;
    if Resolves(cats, emps, t) {
      var c :| c in cats && c.idCategoria == t.idCategoria;
      var e :| e in emps && e.idFuncionario == t.idFuncionario;
      MergeComplete([t], cats, emps, t, c, e);
      assert |ms| == 1;
      MergedRowResolves([t], cats, emps, ms[0]);
    } else {
      UnresolvedSaleMergesToNothing(t, cats, emps);
    }
  }

  /** With unique keys in both reference tables the merged rows extend,
      one each and in order, exactly the extracted sales whose keys both
      resolve; so there are never more merged rows than sales. */
  lemma {:induction false} MergeWithUniqueKeys(sales: seq<Transaction>, cats: seq<Category>, emps: seq<Employee>)
    requires UniqueKeys(cats, CategoryKey) && UniqueKeys(emps, EmployeeKey)
    ensures Sales(MergeData(sales, cats, emps)) == Filter(sales, t => Resolves(cats, emps, t))
    ensures |MergeData(sales, cats, emps)| <= |sales|
  {
    if |sales| > 0 {
      var t, rest := sales[0], sales[1..];
      assert sales == [t] + rest;
      MergeAppend([t], rest, cats, emps);
      MergeSingleUnique(t, cats, emps);
      MergeWithUniqueKeys(rest, cats, emps);
      SalesAppend(MergeData([t], cats, emps), MergeData(rest, cats, emps));
    }
  }

  /** `Sales` distributes over concatenation. */
  lemma SalesAppend(a: seq<Merged>, b: seq<Merged>)
    ensures Sales(a + b) == Sales(a) + Sales(b)
  {
  }
}

=== FILE: pipeline.dfy ===
/** One run of the pipeline, as the Airflow task chain orders it: read the
    watermark, extract, resolve employee names, merge, load, and only
    after the load has gone through write the new watermark. The external
    systems are parameters: `source` is the `venda` table, `cats` the
    category reference file, `lookup` the name service and `loadSucceeds`
    whether the warehouse accepted the inserts. */
module Pipeline {
  import opened Wrappers
  import opened Seqs
  import opened Records
  import opened Checkpoint
  import opened Extract
  import opened Enrich
  import opened Merge
  import opened Load

  /** Why a run ended without advancing the watermark. */
  datatype Stop =
    | UnreadableCheckpoint
    | NothingNew
    | InconsistentCheckpoint
    | MissingSourceMaximum
    | LoadFailed

  /** The employee list for a batch: one lookup per distinct employee id. */
  function EmployeesOf(batch: seq<Transaction>, lookup: int -> string): (emps: seq<Employee>)
    ensures UniqueKeys(emps, EmployeeKey)
    ensures forall t :: t in batch ==> HasEmployee(emps, t)
    ensures forall e :: e in emps ==> e.nomeFuncionario == lookup(e.idFuncionario)
    ensures forall e :: e in emps ==> exists t :: t in batch && t.idFuncionario == e.idFuncionario
  {
    var ids := UniqueEmployeeIds(batch);
    var emps := ExtractApiData(ids, lookup);
    assert forall t :: t in batch ==> Employee(lookup(t.idFuncionario), t.idFuncionario) in emps;
    emps
  }

  /** The merged rows of an extracted batch. */
  function Transform(batch: seq<Transaction>, cats: seq<Category>, lookup: int -> string): seq<Merged> {
    MergeData(batch, cats, EmployeesOf(batch, lookup))
  }

  /** Every employee of the batch is resolved, so with unique category keys
      the only sales the merge drops are those whose category is missing
      from the reference file. */
  lemma OnlyCategoryMissesAreDropped(batch: seq<Transaction>, cats: seq<Category>, lookup: int -> string)
    requires UniqueKeys(cats, CategoryKey)
    ensures Sales(Transform(batch, cats, lookup)) == Filter(batch, t => HasCategory(cats, t))
    ensures |Transform(batch, cats, lookup)| <= |batch|
  {
    var emps := EmployeesOf(batch, lookup);
    MergeWithUniqueKeys(batch, cats, emps);
    FilterCongruent(batch, t => Resolves(cats, emps, t), t => HasCategory(cats, t));
  }

  /** Every merged row carries the name service's answer for its employee. */
  lemma MergedNamesComeFromService(batch: seq<Transaction>, cats: seq<Category>, lookup: int -> string)
    ensures forall m :: m in Transform(batch, cats, lookup) ==> m.nomeFuncionario == lookup(m.sale.idFuncionario)
  {
    forall m | m in Transform(batch, cats, lookup)
      ensures m.nomeFuncionario == lookup(m.sale.idFuncionario)
    {
      MergedRowResolves(batch, cats, EmployeesOf(batch, lookup), m);
    }
  }

  /** The employee dimension has one row per `id_funcionario`: each
      distinct id is asked once, so all merged rows with that id carry the
      same name, and the de-duplicated pairs never repeat an id. */
  lemma EmployeeDimensionHasUniqueIds(batch: seq<Transaction>, cats: seq<Category>, lookup: int -> string)
    ensures UniqueKeys(EmployeeDimension(Transform(batch, cats, lookup)), EmployeeRowId)
  {
    MergedNamesComeFromService(batch, cats, lookup);
    EmployeeDimensionUniqueIds(Transform(batch, cats, lookup));
  }

  /** With unique keys in the category file, the category dimension has one
      row per `id_categoria`: every merged row takes its name from the one
      category with its id. */
  lemma CategoryDimensionHasUniqueIds(batch: seq<Transaction>, cats: seq<Category>, lookup: int -> string)
    requires UniqueKeys(cats, CategoryKey)
    ensures UniqueKeys(CategoryDimension(Transform(batch, cats, lookup)), CategoryRowId)
  {
    var ms := Transform(batch, cats, lookup);
    forall a, b | a in ms && b in ms && a.sale.idCategoria == b.sale.idCategoria
      ensures a.nomeCategoria == b.nomeCategoria
    {
      MergedRowResolves(batch, cats, EmployeesOf(batch, lookup), a);
      MergedRowResolves(batch, cats, EmployeesOf(batch, lookup), b);
      var ca :| ca in cats && ca.idCategoria == a.sale.idCategoria && ca.nomeCategoria == a.nomeCategoria;
      var cb :| cb in cats && cb.idCategoria == b.sale.idCategoria && cb.nomeCategoria == b.nomeCategoria;
      var i :| 0 <= i < |cats| && cats[i] == ca;
      var j :| 0 <= j < |cats| && cats[j] == cb;
      assert CategoryKey(cats[i]) == CategoryKey(cats[j]);
    }
    CategoryDimensionUniqueIds(ms);
  }

  /** What the first two tasks decide: stop, or load `batch` (the sales
      newer than `checkpoint`) and then advance to `watermark`. Neither the
      category file nor the name service takes part in this decision. */
  datatype Decision =
    | Halt(reason: Stop)
    | Proceed(checkpoint: nat, batch: seq<Transaction>, watermark: nat)

  /** Read the watermark, extract, and take `max(id_venda)` of the batch.
      With a readable watermark `cp` it stops with "no new data" when `cp`
      is the table's largest id, with the checkpoint fault when `cp` is
      beyond it, on an empty table, and otherwise proceeds. When it
      proceeds, the batch holds exactly the sales newer than `cp` and the
      next watermark is the largest id of the whole table, beyond `cp` and
      at least every extracted id. */
  function Decide(store: Store, source: seq<Transaction>): (d: Decision)
    ensures d == Halt(UnreadableCheckpoint) <==> Read(store).None?
    ensures d != Halt(LoadFailed)
    ensures Read(store).Some? ==>
      var cp := Read(store).value;
      && (d == Halt(NothingNew) <==> |source| > 0 && MaxId(source) == cp)
      && (d == Halt(InconsistentCheckpoint) <==> |source| > 0 && MaxId(source) < cp)
      && (d == Halt(MissingSourceMaximum) <==> |source| == 0)
      && (d.Proceed? <==> |source| > 0 && MaxId(source) > cp)
    ensures d.Proceed? ==>
      && Read(store) == Some(d.checkpoint)
      && |d.batch| > 0
      && (forall t :: t in d.batch <==> t in source && t.idVenda > d.checkpoint)
      && d.batch == NewRows(source, d.checkpoint)
      && d.watermark > d.checkpoint
      && (forall t :: t in d.batch ==> t.idVenda <= d.watermark)
      && |source| > 0 && d.watermark == MaxId(source)
  {
    match Read(store)
    case None => Halt(UnreadableCheckpoint)
    case Some(cp) =>
      match ExtractRdbmsData(source, cp)
      case NoNewData => Halt(NothingNew)
      case CheckpointInconsistency => Halt(InconsistentCheckpoint)
      case NoSourceMaximum => Halt(MissingSourceMaximum)
      case Rows(batch) =>
        assert forall i :: 0 <= i < |batch| ==> batch[i] in batch;
        var w := NextWatermark(cp, batch);
        var m := MaxId(source);
        assert w == m by {
          var i :| 0 <= i < |source| && source[i].idVenda == m;
          assert source[i] in source;
          assert source[i] in batch;
        }
        Proceed(cp, batch, w)
  }

  datatype Outcome = Completed(warehouse: Warehouse, watermark: nat) | Stopped(reason: Stop)

  /** One run: decide, then resolve names, merge and load the batch, and
      only after the load has gone through write the new watermark. Every
      stop leaves the checkpoint file as it was; a completed run writes the
      largest `id_venda` of the extracted batch, which is beyond the old
      watermark, is the largest id in the whole table, and reads back. */
  function RunOnce(store: Store, source: seq<Transaction>, cats: seq<Category>,
                   lookup: int -> string, loadSucceeds: bool): (r: (Outcome, Store))
    ensures !r.0.Completed? ==> r.1 == store
    ensures r.0.Completed? <==> Decide(store, source).Proceed? && loadSucceeds
    ensures r.0 == Stopped(LoadFailed) <==> Decide(store, source).Proceed? && !loadSucceeds
    ensures Decide(store, source).Halt? ==> r.0 == Stopped(Decide(store, source).reason)
    ensures r.0.Completed? ==>
      && Read(store).Some?
      && Read(r.1) == Some(r.0.watermark)
      && r.0.watermark > Read(store).value
      && |source| > 0 && r.0.watermark == MaxId(source)
    ensures r.0.Completed? ==>
      var ms := Transform(Decide(store, source).batch, cats, lookup);
      && r.0.warehouse == LoadDataToDw(ms)
      && |r.0.warehouse.vendas| == |ms|
      && (forall i :: 0 <= i < |ms| ==> r.0.warehouse.vendas[i] == FactOf(ms[i]))
      && (forall row :: row in r.0.warehouse.funcionarios <==> row in EmployeePairs(ms))
      && (forall row :: row in r.0.warehouse.categorias <==> row in CategoryPairs(ms))
      && (forall d :: CalendarRowOf(d) in r.0.warehouse.calendario <==> d in SaleDates(ms))
  {
    match Decide(store, source)
    case Halt(reason) => (Stopped(reason), store)
    case Proceed(_, batch, w) =>
      if loadSucceeds then (Completed(LoadDataToDw(Transform(batch, cats, lookup)), w), Write(w))
      else (Stopped(LoadFailed), store)
  }

  /** Once the watermark of a decision that proceeded has been written, the
      next decision sees only what was appended to the table since, given
      that appended sales carry larger ids: with nothing appended it stops
      with "no new data", otherwise it extracts exactly the appended sales. */
  lemma NextRunExtractsOnlyAppended(store: Store, source: seq<Transaction>, added: seq<Transaction>)
    requires Decide(store, source).Proceed?
    requires forall t :: t in added ==> t.idVenda > MaxId(source)
    ensures |added| == 0 ==>
      Decide(Write(Decide(store, source).watermark), source + added) == Halt(NothingNew)
    ensures |added| > 0 ==>
      var next := Decide(Write(Decide(store, source).watermark), source + added);
      next.Proceed? && next.batch == added
  {
    var w := Decide(store, source).watermark;
    var grown := source + added;
    assert Read(Write(w)) == Some(w);
    if |added| == 0 {
      assert grown == source;
    } else {
      assert grown[|source|] == added[0];
      assert added[0] in added;
      assert MaxId(grown) > w;
      forall t | t in source
        ensures t.idVenda <= w
      {
        var i :| 0 <= i < |source| && source[i] == t;
      }
      var p := t => IsNew(w, t);
      FilterAppend(source, added, p);
      FilterNone(source, p);
      FilterAll(added, p);
      var next := Decide(Write(w), grown);
      assert next.Proceed? && next.checkpoint == w;
      assert next.batch == NewRows(grown, w) == Filter(grown, p);
    }
  }

  /** The first run finds no checkpoint file, so its watermark is 0: when
      every id is positive it extracts the whole table, in table order, and
      its next watermark is the table's largest id. */
  lemma FirstRunExtractsWholeTable(source: seq<Transaction>)
    requires |source| > 0
    requires forall t :: t in source ==> t.idVenda > 0
    ensures Decide(Missing, source) == Proceed(0, source, MaxId(source))
  {
    assert source[0] in source;
    FilterAll(source, t => IsNew(0, t));
  }

  /** When ids identify sales, a sale without category gets no fact row,
      whatever the employee list. */
  lemma DroppedSaleHasNoFact(batch: seq<Transaction>, cats: seq<Category>, emps: seq<Employee>, t: Transaction)
    requires UniqueKeys(batch, SaleId)
    requires t in batch && !HasCategory(cats, t)
    ensures forall f :: f in FactRows(MergeData(batch, cats, emps)) ==> f.idVenda != t.idVenda
  {
    var ms := MergeData(batch, cats, emps);
    var facts := FactRows(ms);
    forall f | f in facts
      ensures f.idVenda != t.idVenda
    {
      var i :| 0 <= i < |facts| && facts[i] == f;
      var m := ms[i];
      MergedRowResolves(batch, cats, emps, m);
      var j :| 0 <= j < |batch| && batch[j] == t;
      var k :| 0 <= k < |batch| && batch[k] == m.sale;
      assert j != k;
      assert SaleId(batch[j]) != SaleId(batch[k]);
    }
  }

  /** A new sale whose category is missing from the reference file is in
      the extracted batch, yet it gets no fact row and the watermark moves
      past its id, so no later run extracts it again. */
  lemma DroppedSaleIsSkippedForGood(store: Store, source: seq<Transaction>, cats: seq<Category>,
                                    lookup: int -> string, t: Transaction)
    requires Read(store).Some? && |source| > 0 && MaxId(source) > Read(store).value
    requires UniqueKeys(source, SaleId)
    requires t in source && t.idVenda > Read(store).value && !HasCategory(cats, t)
    ensures Decide(store, source).Proceed?
    ensures t in Decide(store, source).batch
    ensures t.idVenda <= Decide(store, source).watermark
    ensures forall f :: f in FactRows(Transform(Decide(store, source).batch, cats, lookup)) ==> f.idVenda != t.idVenda
  {
    var cp := Decide(store, source).checkpoint;
    var batch := Decide(store, source).batch;
    assert batch == NewRows(source, cp);
    FilterKeepsUniqueKeys(source, SaleId, u => IsNew(cp, u));
    DroppedSaleHasNoFact(batch, cats, EmployeesOf(batch, lookup), t);
  }
}

=== FILE: records.dfy ===
/** The records that flow through the pipeline: a sale read from the
    transactional table, a row of the category reference file, an employee
    name resolved through the lookup service, and the row the two joins
    produce. */
module Records {

  /** The sale amount `venda`: carried from the source to the fact table
      untouched, so nothing about its representation is assumed. */
  type Amount(==, !new)

  /** A calendar day. */
  datatype Date = Date(year: int, month: int, day: int) {

    predicate Valid() {
      1 <= month <= 12 && 1 <= day <= DaysInMonth(year, month)
    }

    /** Chronological order: lexicographic on (year, month, day). */
    predicate Before(other: Date) {
      || year < other.year
      || (year == other.year && month < other.month)
      || (year == other.year && month == other.month && day < other.day)
    }

    predicate AtOrBefore(other: Date) {
      this == other || Before(other)
    }
  }

  predicate IsLeapYear(y: int) {
    (y % 4 == 0 && y % 100 != 0) || y % 400 == 0
  }

  function DaysInMonth(y: int, m: int): (n: int)
    requires 1 <= m <= 12
    ensures 28 <= n <= 31
  {
    if m == 2 then (if IsLeapYear(y) then 29 else 28)
    else if m == 4 || m == 6 || m == 9 || m == 11 then 30
    else 31
  }

  /** A date the source's date parsing can produce. */
  type CalendarDate = d: Date | d.Valid() witness Date(1970, 1, 1)

  /** A row of the `venda` table. */
  datatype Transaction = Transaction(
    idVenda: int,
    idFuncionario: int,
    idCategoria: int,
    dataVenda: CalendarDate,
    venda: Amount)

  /** The id that identifies a sale. */
  function SaleId(t: Transaction): int { t.idVenda }

  /** A row of the category reference file, key column already named `id_categoria`. */
  datatype Category = Category(idCategoria: int, nomeCategoria: string)

  /** The key the category file is joined on. */
  function CategoryKey(c: Category): int { c.idCategoria }

  /** An entry of the employee list built from the lookup service. */
  datatype Employee = Employee(nomeFuncionario: string, idFuncionario: int)

  /** The key the employee list is joined on. */
  function EmployeeKey(e: Employee): int { e.idFuncionario }

  /** A sale joined with its category name. */
  datatype WithCategory = WithCategory(sale: Transaction, nomeCategoria: string)

  /** A sale joined with its category name and its employee name. */
  datatype Merged = Merged(sale: Transaction, nomeCategoria: string, nomeFuncionario: string)
}

=== FILE: seqs.dfy ===
/** Sequence operations shared by the pipeline stages: filtering (a SQL
    `WHERE`), first-occurrence de-duplication (pandas `unique()` and
    `drop_duplicates()`), and the facts about them the stages rely on. */
module Seqs {

  /** No element occurs twice. */
  predicate NoDups<T(==)>(s: seq<T>) {
    forall i, j :: 0 <= i < j < |s| ==> s[i] != s[j]
  }

  /** The elements of `s` that satisfy `p`, in their original order. */
  function Filter<T(!new)>(s: seq<T>, p: T -> bool): (r: seq<T>)
    ensures forall x :: x in r <==> x in s && p(x)
    ensures forall i :: 0 <= i < |r| ==> p(r[i])
    ensures |r| <= |s|
  {
    if |s| == 0 then []
    else (if p(s[0]) then [s[0]] else []) + Filter(s[1..], p)
  }

  /** Filtering keeps each accepted element as many times as it occurs in
      `s`, and no rejected element at all. */
  lemma {:induction false} FilterCounts<T(!new)>(s: seq<T>, p: T -> bool, x: T)
    ensures multiset(Filter(s, p))[x] == if p(x) then multiset(s)[x] else 0
  {
    if |s| > 0 {
      assert s == [s[0]] + s[1..];
      FilterCounts(s[1..], p, x);
    }
  }

  /** Filtering distributes over concatenation. */
  lemma {:induction false} FilterAppend<T(!new)>(a: seq<T>, b: seq<T>, p: T -> bool)
    ensures Filter(a + b, p) == Filter(a, p) + Filter(b, p)
  {
    if |a| == 0 {
      assert a + b == b;
    } else {
      assert (a + b)[1..] == a[1..] + b;
      FilterAppend(a[1..], b, p);
    }
  }

  /** A filter that accepts every element returns the sequence itself. */
  lemma {:induction false} FilterAll<T(!new)>(s: seq<T>, p: T -> bool)
    requires forall x :: x in s ==> p(x)
    ensures Filter(s, p) == s
  {
    if |s| > 0 {
      assert forall x :: x in s[1..] ==> x in s;
      FilterAll(s[1..], p);
    }
  }

  /** A filter that rejects every element returns the empty sequence. */
  lemma {:induction false} FilterNone<T(!new)>(s: seq<T>, p: T -> bool)
    requires forall x :: x in s ==> !p(x)
    ensures Filter(s, p) == []
  {
    if |s| > 0 {
      assert forall x :: x in s[1..] ==> x in s;
      FilterNone(s[1..], p);
    }
  }

  /** Filtering by two predicates that agree on the elements gives the same result. */
  lemma {:induction false} FilterCongruent<T(!new)>(s: seq<T>, p: T -> bool, q: T -> bool)
    requires forall x :: x in s ==> p(x) == q(x)
    ensures Filter(s, p) == Filter(s, q)
  {
    if |s| > 0 {
      assert s[0] in s;
      assert forall x :: x in s[1..] ==> x in s;
      FilterCongruent(s[1..], p, q);
    }
  }

  /** Index of the first occurrence of `x` in `s`. */
  function FirstIndex<T(==)>(s: seq<T>, x: T): (k: nat)
    requires x in s
    ensures k < |s| && s[k] == x
    ensures forall i :: 0 <= i < k ==> s[i] != x
  {
    if s[0] == x then 0 else 1 + FirstIndex(s[1..], x)
  }

  /** The distinct elements of `s`, each kept at its first occurrence, in the
      order those first occurrences appear. */
  function Distinct<T(==,!new)>(s: seq<T>): (r: seq<T>)
    ensures NoDups(r)
    ensures forall x :: x in r <==> x in s
    ensures |r| <= |s|
  {
    if |s| == 0 then []
    else
      var init, last := s[..|s| - 1], s[|s| - 1];
      assert s == init + [last];
      var d := Distinct(init);
      if last in d then d else d + [last]
  }

  /** `Distinct` keeps elements in the order of their first occurrence. */
  lemma {:induction false} DistinctKeepsFirstOccurrenceOrder<T(!new)>(s: seq<T>)
    ensures forall i, j :: 0 <= i < j < |Distinct(s)| ==>
      FirstIndex(s, Distinct(s)[i]) < FirstIndex(s, Distinct(s)[j])
  {
    if |s| > 0 {
      var init, last := s[..|s| - 1], s[|s| - 1];
      assert s == init + [last];
      DistinctKeepsFirstOccurrenceOrder(init);
      var d := Distinct(init);
      forall x | x in init
        ensures FirstIndex(s, x) == FirstIndex(init, x)
      {
        FirstIndexPrefix(init, [last], x);
      }
      if last !in d {
        assert last !in init;
        var k := FirstIndex(s, last);
        assert k == |s| - 1;
      }
    }
  }

  /** The first occurrence of an element of `a` in `a + b` lies in `a`. */
  lemma {:induction false} FirstIndexPrefix<T>(a: seq<T>, b: seq<T>, x: T)
    requires x in a
    ensures FirstIndex(a + b, x) == FirstIndex(a, x)
  {
    if a[0] != x {
      assert (a + b)[1..] == a[1..] + b;
      FirstIndexPrefix(a[1..], b, x);
    }
  }

  /** A sequence without duplicates is left unchanged by `Distinct`. */
  lemma {:induction false} DistinctOfDistinct<T(!new)>(s: seq<T>)
    requires NoDups(s)
    ensures Distinct(s) == s
  {
    if |s| > 0 {
      var init, last := s[..|s| - 1], s[|s| - 1];
      assert NoDups(init);
      DistinctOfDistinct(init);
      assert last !in init;
    }
  }

  /** In a sequence without duplicates every element occurs once in the multiset. */
  lemma {:induction false} NoDupsCountsOne<T>(s: seq<T>, x: T)
    requires NoDups(s)
    ensures multiset(s)[x] <= 1
  {
    if |s| > 0 {
      var init, last := s[..|s| - 1], s[|s| - 1];
      assert s == init + [last];
      assert NoDups(init);
      NoDupsCountsOne(init, x);
      if x == last {
        assert x !in init;
      }
    }
  }

  /** A permutation of a duplicate-free sequence is duplicate-free. */
  lemma PermutationKeepsNoDups<T>(a: seq<T>, b: seq<T>)
    requires multiset(a) == multiset(b)
    requires NoDups(a)
    ensures NoDups(b)
  {
    forall i, j | 0 <= i < j < |b|
      ensures b[i] != b[j]
    {
      if b[i] == b[j] {
        var x := b[i];
        assert b == b[..j] + [b[j]] + b[j + 1..];
        assert x in b[..j];
        assert multiset(b)[x] >= 2;
        NoDupsCountsOne(a, x);
        assert false;
      }
    }
  }

  /** No two elements share a key. */
  predicate UniqueKeys<T>(s: seq<T>, key: T -> int) {
    forall i, j {:trigger key(s[i]), key(s[j])} :: 0 <= i < j < |s| ==> key(s[i]) != key(s[j])
  }

  /** Filtering keeps keys unique. */
  lemma {:induction false} FilterKeepsUniqueKeys<T(!new)>(s: seq<T>, key: T -> int, p: T -> bool)
    requires UniqueKeys(s, key)
    ensures UniqueKeys(Filter(s, p), key)
  {
    if |s| > 0 {
      var rest := s[1..];
      assert UniqueKeys(rest, key);
      FilterKeepsUniqueKeys(rest, key, p);
      if p(s[0]) {
        var r := Filter(s, p);
        assert r == [s[0]] + Filter(rest, p);
        forall k | 1 <= k < |r|
          ensures key(r[0]) != key(r[k])
        {
          assert r[k] in rest;
          var j :| 0 <= j < |rest| && rest[j] == r[k];
          assert s[j + 1] == r[k];
        }
      }
    }
  }

  /** Without duplicates, and with equal keys only on equal elements, the
      keys are unique. */
  lemma UniqueKeysOfNoDups<T>(s: seq<T>, key: T -> int)
    requires NoDups(s)
    requires forall x, y :: x in s && y in s && key(x) == key(y) ==> x == y
    ensures UniqueKeys(s, key)
  {
    forall i, j | 0 <= i < j < |s|
      ensures key(s[i]) != key(s[j])
    {
      assert s[i] in s && s[j] in s;
    }
  }
}

=== FILE: wrappers.dfy ===
/** The conventional Some/None datatype, used for values that may be absent:
    a checkpoint file that does not exist, a text that is not a numeral, the
    maximum of an empty table. */
module Wrappers {

  datatype Option<+T> = None | Some(value: T)
}
